=== FILE: README.md ===
# display-switch: display labels, input switching and external commands

This project models the decision logic of `src/display_control.rs` from
display-switch. That program switches a monitor's active video input over
DDC/CI when a USB device is connected or removed. The model has three parts.

- **Display identity** (`DisplayIdentity`). `display_name` builds a label
  from the display's metadata. On Linux this is manufacturer id, model name
  and serial number, with the `None` fields dropped and the rest joined by
  one space. On macOS and Windows it is one opaque id. The label is then put
  in single quotes, with an optional `" #<index>"` before the closing quote.
  `are_display_names_unique` inserts every unindexed label into a set and
  stops at the first label that is already there.
- **Input switch** (`InputSwitch`). `try_switch_display` reads VCP feature
  `0x60` (input select). If the read succeeds and its low byte equals the
  wanted input, nothing is written. Otherwise exactly one write of the
  wanted input to `0x60` is issued. A failed read counts as a mismatch. The
  DDC/CI handle is reduced to three things: the result of its one read, whether
  it accepts the write, and a trace of the writes issued.
- **External command** (`CommandRunner`). `try_run_command` stops early when
  the tokenizer fails. An empty token list is a successful no-op. Otherwise
  it tries to start the first token with the rest as arguments; a start
  error is returned as it is. A run that does not
  succeed becomes an error. Its message has a status line, an stdout
  section and an stderr section, joined by single spaces.

Supporting modules: `Wrappers` (Option, Result), `Decimal` (how `format!`
prints a `usize` or `i32`, and the parser that inverts it), `Words`
(joining on a single space, and the split that undoes it) and `Bits`
(bitwise AND on naturals, used for the `& 0xff` mask).

The foreign calls are replaced as follows:

- `shell_words::split` is a given `Result<seq<string>, string>`.
- Starting the process is a function parameter, `Invocation -> Result<Output, string>`.
- `String::from_utf8` is a function parameter, `seq<byte> -> Option<string>`.
- The `ddc_hi` register read and write are an `Option<uint16>` read result plus
  a write flag and a write trace.

Points of the code that the model keeps as written:

- Only `None` is dropped (the `flatten`), so `Some("")` is kept and leaves
  a double space. `EmptyFieldIsKept` shows this.
- `"Stdout was not UTF-8"` and `"Stderr was not UTF-8"` carry no trailing
  newline, unlike the other sections.
- The input value has the same 16-bit type as `set_vcp_feature`'s value and
  as the masked read it is compared with; the input type itself is not
  part of this model. `WideInputAlwaysWrites` records what follows from a
  value above `0xff`.
- Success of the process follows Rust's `ExitStatus::success`. A run
  succeeds only on exit code 0. A run ended by a signal has no code and
  never succeeds.

## Model

| member | source | states |
|---|---|---|
| DisplayIdentity.DisplayName | src/display_control.rs:38-42 | every label, indexed or not, starts and ends with a single quote and has at least two characters, so it is never empty, even when no metadata is present |
| DisplayIdentity.UnindexedLabelIsQuotedId | src/display_control.rs:40-41 | removing the enclosing quotes from an unindexed label gives back exactly the display id |
| DisplayIdentity.OpaqueLabelIsQuotedId | src/display_control.rs:33-41 | on macOS and Windows, removing the quotes from the unindexed label gives back exactly the opaque id |
| DisplayIdentity.OpaqueLabelsEqualIffIdsEqual | src/display_control.rs:33-41 | on macOS and Windows, two unindexed labels are equal exactly when the opaque ids are equal |
| DisplayIdentity.IndexSuffixIsOnlyDifference | src/display_control.rs:38-42 | the indexed label is the unindexed label with `" #<index>"` inserted before the closing quote, and nothing else changes |
| DisplayIdentity.IndexedLabelRoundTrip | src/display_control.rs:38-39 | an indexed label can be parsed back into the display id and the index, even when the id itself contains `" #"` |
| DisplayIdentity.DistinctIndicesGiveDistinctLabels | src/display_control.rs:38-39 | labels with different indices never collide, whatever the metadata of the two displays |
| DisplayIdentity.UnindexedLabelsEqualIffIdsEqual | src/display_control.rs:40-41 | two unindexed labels are equal exactly when the two display ids are equal |
| DisplayIdentity.PresentConcat | src/display_control.rs:28-31 | dropping `None`s (`flatten`) keeps the order of the remaining fields: it distributes over concatenation |
| DisplayIdentity.LinuxIdSplitsIntoPresentFields | src/display_control.rs:22-32 | on Linux, when at least one field is `Some` and no field contains a space, the id splits at its spaces into exactly the `Some` fields in the order manufacturer, model, serial; a `None` field contributes nothing |
| DisplayIdentity.NoMetadataLabel | src/display_control.rs:22-42 | a Linux display with all three fields `None` gets the label `''`, and `' #2'` with index 2 |
| DisplayIdentity.EmptyFieldIsKept | src/display_control.rs:23-32 | a `Some("")` model name is not dropped, so the label is `'DEL  7'` with two spaces |
| DisplayIdentity.AreDisplayNamesUnique | src/display_control.rs:45-48 | the set-insertion loop returns true exactly when no two displays at positions i < j have equal unindexed labels; the empty and one-element lists give true |
| DisplayIdentity.LabelsDistinctIffIdsDistinct | src/display_control.rs:45-48 | the uniqueness check holds exactly when the display ids are pairwise distinct |
| DisplayIdentity.EqualIdsAreNotUnique | src/display_control.rs:45-48 | any list holding two displays, at any positions i < j, whose ids are equal is not unique |
| DisplayIdentity.DifferentMetadataSameLabel | src/display_control.rs:22-32 | different metadata can collide: manufacturer `A` with model `B C` and manufacturer `A B` with model `C` both get the label `'A B C'`, so a list of the two is not unique |
| Words.SplitJoinRoundTrip | src/display_control.rs:31-32 | for a non-empty list of space-free parts, joining with one space and then splitting at spaces gives back every part, empty parts included |
| Decimal.DecimalRoundTrip | src/display_control.rs:39 | the decimal text printed for an index reads back as the same number |
| Decimal.NatToDecimalInjective | src/display_control.rs:39 | two indices print the same way exactly when they are equal |
| Decimal.IntRoundTrip | src/display_control.rs:93 | a signed exit code, as printed, reads back as the same code |
| InputSwitch.LowByte | src/display_control.rs:53 | `raw & 0xff`, computed bit by bit, is below 256 and equals `raw` modulo 256 |
| Bits.BitAndLowMask | src/display_control.rs:53 | masking with k one-bits keeps a value modulo 2^k |
| InputSwitch.TrySwitchDisplay | src/display_control.rs:51-70 | no write is issued exactly when the read succeeded and its low byte equals the wanted input; otherwise exactly one write `(0x60, input)` is appended to the trace; the attempt ends switched exactly when a write was issued and accepted |
| InputSwitch.AtMostOneWrite | src/display_control.rs:51-63 | one attempt keeps every earlier write in place and adds at most one |
| InputSwitch.FailedReadStillWrites | src/display_control.rs:58-63 | a failed read still leads to the write of the wanted input |
| InputSwitch.MaskInvariance | src/display_control.rs:53 | two reads with the same low byte lead to the same decision and the same trace |
| InputSwitch.WideInputAlwaysWrites | src/display_control.rs:53-63 | an input value above `0xff` never equals a masked read, so every attempt writes |
| InputSwitch.SwitchMonitor | src/display_control.rs:51-70 | the attempt on a monitor is the switch decision taken on what the monitor reports; for a readable monitor and a one-byte input, the attempt does not end in a failed write exactly when the monitor afterwards reads as showing the wanted input |
| InputSwitch.SwitchTwiceWritesOnce | src/display_control.rs:51-56 | idempotence: after a readable monitor is switched to a one-byte input, or already showed it, a second attempt writes nothing |
| InputSwitch.HighByteIgnoredExample | src/display_control.rs:53-55 | a read of `0x010f` when `0x0f` is wanted issues no write |
| CommandRunner.Classify | src/display_control.rs:88-115 | a finished process gives `Ok` exactly when it exited with code 0; otherwise it gives an error with a non-empty message |
| CommandRunner.TryRunCommand | src/display_control.rs:80-116 | a tokenizer error is returned unchanged and nothing is started; an empty token list is `Ok` and nothing is started; otherwise exactly one start is attempted, with the first token as executable and the rest as arguments; a start error is returned unchanged, and a finished process gives `Classify`'s result; the result is `Ok` exactly on a no-op or on a started process that exited with 0 |
| CommandRunner.StatusRecoverableFromMessage | src/display_control.rs:92-96 | a failure message begins with the status line `Exited with status <code>` or `Exited because of a signal` followed by a newline, and the exit status can be read back from that first line |
| CommandRunner.FailedRunLeadsWithStatus | src/display_control.rs:87-96 | a command that starts but does not succeed fails with a message that begins with its status line and a newline, from which the exit status can be read back |
| CommandRunner.StatusTextRoundTrip | src/display_control.rs:92-96 | the status line contains no newline and parses back to the exit status it was made from |
| CommandRunner.FirstLineOfConcat | src/display_control.rs:93-95 | newline-free text followed by a newline is the first line of the message it starts, and that message begins with the text and the newline |
| CommandRunner.StdoutSectionFollowsStatus | src/display_control.rs:97-105 | in every failure message the stdout section (`No stdout`, the decoded text, or the not-UTF-8 note) follows the status line, its newline and a space, so output that is not text is never dropped |
| CommandRunner.StderrSectionEndsMessage | src/display_control.rs:106-115 | in every failure message the stderr section (`No stderr`, the decoded text, or the not-UTF-8 note) ends the message |
| CommandRunner.DecodedStdoutInMessage | src/display_control.rs:97-99 | in a failure message, non-empty stdout that decodes as UTF-8 appears in full as `Stdout = [<text>]\n`, right after the status line, its newline and a space |
| CommandRunner.DecodedStderrInMessage | src/display_control.rs:106-108 | in a failure message, non-empty stderr that decodes as UTF-8 appears in full as `Stderr = [<text>]\n` at the very end |
| CommandRunner.AbsentIffEmpty | src/display_control.rs:97-114 | a stream is reported as `No stdout` / `No stderr` exactly when it captured nothing, so output that is not text is still reported as present |
| CommandRunner.FalseCommandExample | src/display_control.rs:81-115 | running `false`, which exits with 1 and prints nothing, starts one process and fails with `Exited with status 1\n No stdout\n No stderr\n` |
| CommandRunner.SignalExample | src/display_control.rs:92-115 | a run killed by a signal, with empty stdout and non-text stderr, fails with `Exited because of a signal\n No stdout\n Stderr was not UTF-8` |

## Left out

- Hardware I/O through `ddc_hi` (`get_vcp_feature`, `set_vcp_feature`) is a foreign crate. It is reduced to a read result, a write-accepted flag and a write trace.
- `shell_words::split` is a foreign tokenizer with POSIX quoting rules. Its result is an input to `TryRunCommand`.
- Process spawning, `Stdio::null` and output capture are OS I/O. They are reduced to a function parameter from the invocation to the captured output or a spawn error.
- `String::from_utf8` is a function parameter. The real UTF-8 validity rules are not modelled.
- The logging macros (`info!`, `warn!`, `debug!`, `error!`) are not modelled. Their outcomes show up as return values: the switch outcome, the write trace, and the command's `Result`.
- `run_command` (lines 79-121) only logs the error that `try_run_command` returns, so it is not modelled beyond `TryRunCommand`.
- `switch` (lines 73-77) depends on `Configuration` and `SwitchDirection`. Those are not part of this model.
- `RETRY_DELAY_MS` and the `thread`/`time` imports are unused in this file and concern timing.
- The per-platform `cfg` selection is modelled as two variants of `DisplayInfo`: Linux fields, or one opaque id.
- Integer widths: indices (`usize`) are unbounded naturals and exit codes (`i32`) unbounded integers. Their decimal text does not depend on the width.
- InputSwitch.SwitchMonitor: the register update is a hardware assumption, not part of the switching code: a monitor is assumed to report back exactly the value last written. Monitors that answer a read with other bits set are covered only by `MaskInvariance`.

=== FILE: bits.dfy ===
/** Bitwise AND on non-negative integers, and the fact that masking with
    k one-bits is the same as taking the value modulo 2^k. */
module Bits {

  function Pow2(k: nat): (p: nat)
    ensures p >= 1
  {
    if k == 0 then 1 else 2 * Pow2(k - 1)
  }

  /** Bitwise `&` of two non-negative integers, one bit at a time from the
      least significant end. */
  function BitAnd(a: nat, b: nat): nat
    decreases a
  {
    if a == 0 || b == 0 then 0
    else 2 * BitAnd(a / 2, b / 2) + (a % 2) * (b % 2)
  }

  /** Masking with k one-bits keeps the value modulo 2^k. */
  lemma {:induction false} BitAndLowMask(x: nat, k: nat)
    ensures BitAnd(x, Pow2(k) - 1) == x % Pow2(k)
    decreases k
  {
    if k > 0 && x > 0 {
      var p := Pow2(k - 1);
      assert Pow2(k) == 2 * p;
      BitAndOddMask(x, p);
      BitAndLowMask(x / 2, k - 1);
      DivModPow2(x, p);
      assert BitAnd(x, Pow2(k) - 1) == BitAnd(x, 2 * p - 1);
      assert x % Pow2(k) == x % (2 * p);
    } else if k == 0 {
      assert Pow2(k) - 1 == 0;
      assert x % 1 == 0;
    } else {
      assert x == 0;
    }
  }

  /** One step of `BitAnd` against a mask of one-bits 2p - 1: the lowest
      bit of x survives and the rest is masked with p - 1. */
  lemma BitAndOddMask(x: nat, p: nat)
    requires p >= 1
    ensures BitAnd(x, 2 * p - 1) == 2 * BitAnd(x / 2, p - 1) + x % 2
  {
  }

  /** x mod 2p is twice (x/2 mod p) plus x's lowest bit. */
  lemma DivModPow2(x: nat, p: nat)
    requires p >= 1
    ensures x % (2 * p) == 2 * ((x / 2) % p) + x % 2
  {
    var q := (x / 2) / p;
    var r := (x / 2) % p;
    assert x / 2 == q * p + r;
    assert x == 2 * (q * p + r) + x % 2;
    assert 2 * (q * p) == q * (2 * p);
    ModUnique(x, 2 * p, q, 2 * r + x % 2);
  }

  /** The remainder is the only value below the modulus that differs from x
      by a multiple of it. */
  lemma ModUnique(x: nat, m: nat, q: nat, b: nat)
    requires b < m
    requires x == q * m + b
    ensures x % m == b
  {
    var q' := x / m;
    var r' := x % m;
    assert q' * m + r' == q * m + b;
    if q' > q {
      MulStep(q, q' - q, m);
    } else if q' < q {
      MulStep(q', q - q', m);
    }
  }

  /** (a + d) * m is at least a * m + m once d is positive. */
  lemma MulStep(a: nat, d: nat, m: nat)
    requires d >= 1
    ensures (a + d) * m >= a * m + m
  {
  }
}

=== FILE: command_runner.dfy ===
/** The decision logic of `try_run_command`: skip an empty command, run the
    first token with the rest as arguments, and turn an unsuccessful exit
    into a diagnostic message. Tokenizing (`shell_words::split`), spawning
    the process and UTF-8 decoding are foreign and come in as values and
    function parameters. */
module CommandRunner {
  import opened Wrappers
  import opened Decimal

  type byte = x: int | 0 <= x < 0x100

  /** How the child process ended: with an exit code, or killed by a
      signal (then no code is available). */
  datatype ExitStatus = Exited(code: int) | Signaled {
    /** `ExitStatus::success`: a zero exit code; a signal is never success. */
    predicate Success() {
      Exited? && code == 0
    }
  }

  /** What `Command::output` captures. */
  datatype Output = Output(status: ExitStatus, stdout: seq<byte>, stderr: seq<byte>)

  /** The process to start: executable and argument vector. */
  datatype Invocation = Invocation(executable: string, args: seq<string>)

  /** What one call did: the processes it started and what it returned. */
  datatype Report = Report(spawned: seq<Invocation>, result: Result<(), string>)

  datatype Stream = Stdout | Stderr {
    function Title(): string {
      match this
      case Stdout => "Stdout"
      case Stderr => "Stderr"
    }
    function Lower(): string {
      match this
      case Stdout => "stdout"
      case Stderr => "stderr"
    }
  }

  /** The first line of the failure message, without its newline. */
  function StatusText(status: ExitStatus): string {
    match status
    case Exited(code) => "Exited with status " + IntToDecimal(code)
    case Signaled => "Exited because of a signal"
  }

  /** How one captured stream is shown: absent, as text, or as a note
      that it was not text. `decode` stands for `String::from_utf8`. The
      not-UTF-8 line carries no trailing newline. */
  function StreamSection(stream: Stream, bytes: seq<byte>, decode: seq<byte> -> Option<string>): string {
    if |bytes| == 0 then "No " + stream.Lower() + "\n"
    else
      match decode(bytes)
      case Some(text) => stream.Title() + " = [" + text + "]\n"
      case None => stream.Title() + " was not UTF-8"
  }

  /** `format!("{} {} {}", msg, stdout, stderr)`. */
  function FailureMessage(output: Output, decode: seq<byte> -> Option<string>): string {
    StatusText(output.status) + "\n" + " " + StreamSection(Stdout, output.stdout, decode)
      + " " + StreamSection(Stderr, output.stderr, decode)
  }

  /** The outcome of a finished process: `Ok` on success, otherwise an
      error carrying the diagnostic message. */
  function Classify(output: Output, decode: seq<byte> -> Option<string>): (r: Result<(), string>)
    ensures r.Success? <==> output.status == Exited(0)
    ensures r.Failure? ==> |r.error| > 0
  {
    if output.status.Success() then Success(()) else Failure(FailureMessage(output, decode))
  }

  /** `try_run_command`, given the tokenizer's result, the process runner
      (`Failure` when the process cannot be started) and the UTF-8 decoder. */
  function TryRunCommand(
    tokens: Result<seq<string>, string>,
    spawn: Invocation -> Result<Output, string>,
    decode: seq<byte> -> Option<string>
  ): (r: Report)
    ensures tokens.Failure? ==> r == Report([], Failure(tokens.error))
    ensures tokens.Success? && |tokens.value| == 0 ==> r == Report([], Success(()))
    ensures tokens.Success? && |tokens.value| > 0 ==>
      r.spawned == [Invocation(tokens.value[0], tokens.value[1..])]
    ensures r.result.Success? <==>
      tokens.Success? &&
      (|tokens.value| == 0 ||
       (var out := spawn(Invocation(tokens.value[0], tokens.value[1..]));
        out.Success? && out.value.status == Exited(0)))
    ensures tokens.Success? && |tokens.value| > 0 ==>
      var out := spawn(Invocation(tokens.value[0], tokens.value[1..]));
      (out.Failure? ==> r.result == Failure(out.error)) &&
      (out.Success? ==> r.result == Classify(out.value, decode))
  {
    match tokens
    case Failure(e) => Report([], Failure(e))
    case Success(words) =>
      if |words| == 0 then Report([], Success(()))
      else
        var invocation := Invocation(words[0], words[1..]);
        match spawn(invocation)
        case Failure(e) => Report([invocation], Failure(e))
        case Success(output) => Report([invocation], Classify(output, decode))
  }

  /** The text before the first newline (all of it if there is none). */
  function FirstLine(s: string): (line: string)
    ensures |line| <= |s| && line == s[..|line|]
    ensures forall k :: 0 <= k < |line| ==> line[k] != '\n'
  {
    if |s| == 0 || s[0] == '\n' then "" else [s[0]] + FirstLine(s[1..])
  }

  /** Reads the exit status back from the first line of a message. */
  function ParseStatusLine(line: string): Option<ExitStatus> {
    var prefix := "Exited with status ";
    if line == "Exited because of a signal" then Some(Signaled)
    else if |prefix| <= |line| && line[..|prefix|] == prefix then
      match ParseInt(line[|prefix|..])
      case Some(code) => Some(Exited(code))
      case None => None
    else None
  }

  lemma {:induction false} FirstLineOfConcat(a: string, b: string)
    requires forall k :: 0 <= k < |a| ==> a[k] != '\n'
    ensures FirstLine(a + "\n" + b) == a
    ensures (a + "\n" + b)[..|a| + 1] == a + "\n"
    decreases |a|
  {
    assert (a + "\n" + b)[..|a| + 1] == a + "\n";
    if |a| > 0 {
      assert (a + "\n" + b)[1..] == a[1..] + "\n" + b;
      FirstLineOfConcat(a[1..], b);
    } else {
      assert (a + "\n" + b)[0] == '\n';
    }
  }

  /** The failure message always leads with a line from which the exit
      status (the code, or the fact of a signal) can be read back. */
  lemma StatusRecoverableFromMessage(output: Output, decode: seq<byte> -> Option<string>)
    requires !output.status.Success()
    ensures Classify(output, decode).Failure?
    ensures var msg := Classify(output, decode).error;
      |msg| > |StatusText(output.status)| &&
      msg[..|StatusText(output.status)| + 1] == StatusText(output.status) + "\n"
    ensures ParseStatusLine(FirstLine(Classify(output, decode).error)) == Some(output.status)
  {
    var first := StatusText(output.status);
    var rest := " " + StreamSection(Stdout, output.stdout, decode) + " " + StreamSection(Stderr, output.stderr, decode);
    assert FailureMessage(output, decode) == first + "\n" + rest;
    FirstLineOfConcat(first, rest);
    StatusTextRoundTrip(output.status);
  }

  /** A command that starts but does not succeed fails with a message whose
      first line, newline included, is the status line of its exit. */
  lemma FailedRunLeadsWithStatus(
    tokens: Result<seq<string>, string>,
    spawn: Invocation -> Result<Output, string>,
    decode: seq<byte> -> Option<string>
  )
    requires tokens.Success? && |tokens.value| > 0
    requires spawn(Invocation(tokens.value[0], tokens.value[1..])).Success?
    requires !spawn(Invocation(tokens.value[0], tokens.value[1..])).value.status.Success()
    ensures var status := spawn(Invocation(tokens.value[0], tokens.value[1..])).value.status;
      var r := TryRunCommand(tokens, spawn, decode);
      r.result.Failure? &&
      |r.result.error| > |StatusText(status)| &&
      r.result.error[..|StatusText(status)| + 1] == StatusText(status) + "\n" &&
      ParseStatusLine(FirstLine(r.result.error)) == Some(status)
  {
    var output := spawn(Invocation(tokens.value[0], tokens.value[1..])).value;
    StatusRecoverableFromMessage(output, decode);
  }

  lemma StatusTextRoundTrip(status: ExitStatus)
    ensures forall k :: 0 <= k < |StatusText(status)| ==> StatusText(status)[k] != '\n'
    ensures ParseStatusLine(StatusText(status)) == Some(status)
  {
    var prefix := "Exited with status ";
    match status
    case Exited(code) =>
      var text := StatusText(status);
      assert text[..|prefix|] == prefix;
      assert text[|prefix|..] == IntToDecimal(code);
      assert text != "Exited because of a signal" by {
        assert text[7] != "Exited because of a signal"[7];
      }
      IntRoundTrip(code);
    case Signaled =>
  }

  /** A stream is reported as absent exactly when it captured nothing:
      output that is not text is still reported as existing. */
  lemma AbsentIffEmpty(stream: Stream, bytes: seq<byte>, decode: seq<byte> -> Option<string>)
    ensures StreamSection(stream, bytes, decode) == "No " + stream.Lower() + "\n" <==> |bytes| == 0
  {
  }

  /** Whatever stdout held (nothing, text, or bytes that are not text),
      its section sits right after the status line and a space. */
  lemma StdoutSectionFollowsStatus(output: Output, decode: seq<byte> -> Option<string>)
    requires !output.status.Success()
    ensures Classify(output, decode).Failure?
    ensures var msg := Classify(output, decode).error;
      var n := |StatusText(output.status)| + 2;
      var sec := StreamSection(Stdout, output.stdout, decode);
      n + |sec| <= |msg| && msg[n..n + |sec|] == sec
  {
  }

  /** Whatever stderr held, its section ends the message. */
  lemma StderrSectionEndsMessage(output: Output, decode: seq<byte> -> Option<string>)
    requires !output.status.Success()
    ensures Classify(output, decode).Failure?
    ensures var msg := Classify(output, decode).error;
      var sec := StreamSection(Stderr, output.stderr, decode);
      |sec| <= |msg| && msg[|msg| - |sec|..] == sec
  {
  }

  /** Captured stdout that decodes appears in full, in brackets, right
      after the status line and its separating space. */
  lemma DecodedStdoutInMessage(output: Output, text: string, decode: seq<byte> -> Option<string>)
    requires !output.status.Success()
    requires |output.stdout| > 0 && decode(output.stdout) == Some(text)
    ensures Classify(output, decode).Failure?
    ensures var msg := Classify(output, decode).error;
      var n := |StatusText(output.status)| + 2;
      n + |text| + 12 <= |msg| && msg[n..n + |text| + 12] == "Stdout = [" + text + "]\n"
  {
  }

  /** Captured stderr that decodes appears in full, in brackets, at the end
      of the message. */
  lemma DecodedStderrInMessage(output: Output, text: string, decode: seq<byte> -> Option<string>)
    requires !output.status.Success()
    requires |output.stderr| > 0 && decode(output.stderr) == Some(text)
    ensures Classify(output, decode).Failure?
    ensures var msg := Classify(output, decode).error;
      |text| + 12 <= |msg| && msg[|msg| - |text| - 12..] == "Stderr = [" + text + "]\n"
  {
  }

  /** `false` exits with status 1 and prints nothing. */
  lemma FalseCommandExample(decode: seq<byte> -> Option<string>)
    ensures TryRunCommand(Success(["false"]), _ => Success(Output(Exited(1), [], [])), decode)
      == Report([Invocation("false", [])], Failure("Exited with status 1\n No stdout\n No stderr\n"))
  {
    assert IntToDecimal(1) == "1";
    assert StatusText(Exited(1)) == "Exited with status 1";
    assert StreamSection(Stdout, [], decode) == "No stdout\n";
    assert StreamSection(Stderr, [], decode) == "No stderr\n";
    var out := Output(Exited(1), [], []);
    assert FailureMessage(out, decode) == "Exited with status 1\n No stdout\n No stderr\n";
    assert Classify(out, decode) == Failure("Exited with status 1\n No stdout\n No stderr\n");
    assert ["false"][1..] == [];
  }

  /** A process killed by a signal, which printed nothing on stdout and
      something that is not text on stderr. */
  lemma SignalExample(junk: seq<byte>, decode: seq<byte> -> Option<string>)
    requires |junk| > 0 && decode(junk) == None
    ensures Classify(Output(Signaled, [], junk), decode)
      == Failure("Exited because of a signal\n No stdout\n Stderr was not UTF-8")
  {
    var msg := FailureMessage(Output(Signaled, [], junk), decode);
    assert StreamSection(Stdout, [], decode) == "No stdout\n";
    assert StreamSection(Stderr, junk, decode) == "Stderr was not UTF-8";
    assert msg == "Exited because of a signal" + "\n" + " " + "No stdout\n" + " " + "Stderr was not UTF-8";
    assert msg == "Exited because of a signal\n No stdout\n Stderr was not UTF-8";
    assert Classify(Output(Signaled, [], junk), decode) == Failure(msg);
  }
}

=== FILE: decimal.dfy ===
/** Decimal rendering of integers, as `format!("{}", n)` prints a `usize`
    or an `i32`, together with the parser that inverts it. */
module Decimal {
  import opened Wrappers

  predicate IsDigit(c: char) {
    '0' <= c <= '9'
  }

  predicate AllDigits(s: string) {
    forall i :: 0 <= i < |s| ==> IsDigit(s[i])
  }

  function DigitChar(d: nat): (c: char)
    requires d < 10
    ensures IsDigit(c)
  {
    ['0', '1', '2', '3', '4', '5', '6', '7', '8', '9'][d]
  }

  function DigitValue(c: char): (d: nat)
    requires IsDigit(c)
    ensures d < 10
  {
    (c as int) - ('0' as int)
  }

  /** The shortest decimal spelling of `n`: digits only, never empty, and
      without a leading zero unless `n` is zero. */
  function NatToDecimal(n: nat): (s: string)
    ensures |s| > 0
    ensures AllDigits(s)
    ensures s[0] == '0' ==> n == 0 && |s| == 1
    decreases n
  {
    if n < 10 then [DigitChar(n)] else NatToDecimal(n / 10) + [DigitChar(n % 10)]
  }

  /** Reads a string of digits as a number (most significant digit first). */
  function DecimalToNat(s: string): nat
    requires AllDigits(s)
  {
    if |s| == 0 then 0 else DecimalToNat(s[..|s| - 1]) * 10 + DigitValue(s[|s| - 1])
  }

  /** A signed integer as Rust's `Display` for `i32` prints it: a minus sign,
      then the magnitude. */
  function IntToDecimal(i: int): (s: string)
    ensures |s| > 0
    ensures i >= 0 <==> s[0] != '-'
    ensures forall k :: 0 <= k < |s| ==> IsDigit(s[k]) || (k == 0 && s[k] == '-')
  {
    if i >= 0 then NatToDecimal(i) else "-" + NatToDecimal(-i)
  }

  /** Parses what `IntToDecimal` prints; `None` for anything else that is
      not an optional minus sign followed by at least one digit. */
  function ParseInt(s: string): Option<int> {
    if |s| > 0 && s[0] == '-' then
      if |s| > 1 && AllDigits(s[1..]) then Some(-(DecimalToNat(s[1..]) as int)) else None
    else if |s| > 0 && AllDigits(s) then Some(DecimalToNat(s) as int)
    else None
  }

  lemma {:induction false} DecimalRoundTrip(n: nat)
    ensures DecimalToNat(NatToDecimal(n)) == n
    decreases n
  {
    if n >= 10 {
      var s := NatToDecimal(n);
      assert s[..|s| - 1] == NatToDecimal(n / 10);
      DecimalRoundTrip(n / 10);
      assert DigitValue(DigitChar(n % 10)) == n % 10;
    } else {
      var s := NatToDecimal(n);
      assert s[..|s| - 1] == [];
      assert DigitValue(DigitChar(n)) == n;
    }
  }

  /** Different numbers never print the same way. */
  lemma NatToDecimalInjective(m: nat, n: nat)
    ensures NatToDecimal(m) == NatToDecimal(n) <==> m == n
  {
    DecimalRoundTrip(m);
    DecimalRoundTrip(n);
  }

  lemma {:induction false} IntRoundTrip(i: int)
    ensures ParseInt(IntToDecimal(i)) == Some(i)
  {
    if i >= 0 {
      DecimalRoundTrip(i);
    } else {
      var s := IntToDecimal(i);
      assert s[1..] == NatToDecimal(-i);
      DecimalRoundTrip(-i);
    }
  }
}

=== FILE: display_identity.dfy ===
/** Display labels (`display_name`) and the label-collision check
    (`are_display_names_unique`). */
module DisplayIdentity {
  import opened Wrappers
  import opened Decimal
  import opened Words

  /** The part of `ddc_hi`'s display info that labels are built from. Linux
      reports up to three optional fields; macOS and Windows report one
      opaque id. */
  datatype DisplayInfo =
    | LinuxInfo(manufacturerId: Option<string>, modelName: Option<string>, serialNumber: Option<string>)
    | OpaqueInfo(id: string)

  /** `flatten` over a list of options: the `Some` values in order. Only
      `None` is dropped; `Some("")` stays. */
  function Present(fields: seq<Option<string>>): (r: seq<string>)
    ensures |r| <= |fields|
    ensures forall k :: 0 <= k < |r| ==> Some(r[k]) in fields
  {
    if |fields| == 0 then []
    else
      match fields[0]
      case None => Present(fields[1..])
      case Some(s) => [s] + Present(fields[1..])
  }

  /** The identifier part of a label, before quoting. */
  function DisplayId(info: DisplayInfo): string {
    match info
    case LinuxInfo(manufacturer, model, serial) =>
      JoinWithSpace(Present([manufacturer, model, serial]))
    case OpaqueInfo(id) => id
  }

  /** `display_name(display, index)`: the id in single quotes, with
      `" #<index>"` before the closing quote when an index is given. */
  function DisplayName(info: DisplayInfo, index: Option<nat>): (name: string)
    ensures |name| >= 2
    ensures name[0] == '\'' && name[|name| - 1] == '\''
  {
    match index
    case Some(i) => "'" + DisplayId(info) + " #" + NatToDecimal(i) + "'"
    case None => "'" + DisplayId(info) + "'"
  }

  /** The text between the enclosing single quotes, if there are any. */
  function Unquote(s: string): (body: Option<string>)
    ensures body.Some? ==> "'" + body.value + "'" == s
  {
    if |s| >= 2 && s[0] == '\'' && s[|s| - 1] == '\'' then
      Some(s[1..|s| - 1])
    else None
  }

  /** Position of the last occurrence of `c` in `s`. */
  function LastIndexOf(s: string, c: char): (r: Option<nat>)
    ensures r.Some? ==> r.value < |s| && s[r.value] == c
    ensures r.Some? ==> forall k :: r.value < k < |s| ==> s[k] != c
    ensures r.None? ==> forall k :: 0 <= k < |s| ==> s[k] != c
  {
    if |s| == 0 then None
    else if s[|s| - 1] == c then Some(|s| - 1)
    else LastIndexOf(s[..|s| - 1], c)
  }

  /** Reads back the id and the index of an indexed label. The index is
      the digits after the LAST '#', so an id that itself contains " #"
      does not confuse it: digits never contain '#'. */
  function ParseIndexedLabel(s: string): Option<(string, nat)> {
    match Unquote(s)
    case None => None
    case Some(body) =>
      match LastIndexOf(body, '#')
      case None => None
      case Some(k) =>
        if 1 <= k && body[k - 1] == ' ' && k + 1 < |body| && AllDigits(body[k + 1..]) then
          Some((body[..k - 1], DecimalToNat(body[k + 1..])))
        else None
  }

  /** Without an index, the label is the id in quotes and nothing else. */
  lemma UnindexedLabelIsQuotedId(info: DisplayInfo)
    ensures Unquote(DisplayName(info, None)) == Some(DisplayId(info))
  {
  }

  /** On macOS and Windows the label is the opaque id in quotes. */
  lemma OpaqueLabelIsQuotedId(id: string)
    ensures Unquote(DisplayName(OpaqueInfo(id), None)) == Some(id)
  {
  }

  /** Two macOS or Windows labels are equal exactly when the opaque ids are. */
  lemma OpaqueLabelsEqualIffIdsEqual(a: string, b: string)
    ensures DisplayName(OpaqueInfo(a), None) == DisplayName(OpaqueInfo(b), None) <==> a == b
  {
    OpaqueLabelIsQuotedId(a);
    OpaqueLabelIsQuotedId(b);
  }

  /** The indexed label is the unindexed one with `" #<index>"` slipped in
      before the closing quote; that suffix is the only difference. */
  lemma IndexSuffixIsOnlyDifference(info: DisplayInfo, i: nat)
    ensures var plain := DisplayName(info, None);
      DisplayName(info, Some(i)) == plain[..|plain| - 1] + " #" + NatToDecimal(i) + "'"
  {
  }

  /** The '#' of the index suffix is the last one in the label body:
      no digit is a '#'. */
  lemma {:induction false} LastHashPrecedesDigits(id: string, digits: string)
    requires AllDigits(digits)
    ensures LastIndexOf(id + " #" + digits, '#') == Some(|id| + 1)
    decreases |digits|
  {
    var body := id + " #" + digits;
    if |digits| > 0 {
      var shorter := digits[..|digits| - 1];
      assert body[..|body| - 1] == id + " #" + shorter;
      assert body[|body| - 1] == digits[|digits| - 1];
      assert IsDigit(body[|body| - 1]);
      LastHashPrecedesDigits(id, shorter);
    } else {
      assert body[|body| - 1] == '#';
    }
  }

  /** Parsing a quoted `<id> #<digits>` gives back the id and the number
      the digits spell. */
  lemma ParseQuotedIndexedBody(id: string, digits: string)
    requires |digits| > 0 && AllDigits(digits)
    ensures ParseIndexedLabel("'" + (id + " #" + digits) + "'") == Some((id, DecimalToNat(digits)))
  {
    var body := id + " #" + digits;
    var s := "'" + body + "'";
    assert s[1..|s| - 1] == body;
    assert Unquote(s) == Some(body);
    var k := |id| + 1;
    LastHashPrecedesDigits(id, digits);
    assert body[k - 1] == ' ';
    assert body[k + 1..] == digits;
    assert body[..k - 1] == id;
  }

  /** An indexed label determines both the id and the index. */
  lemma {:induction false} IndexedLabelRoundTrip(info: DisplayInfo, i: nat)
    ensures ParseIndexedLabel(DisplayName(info, Some(i))) == Some((DisplayId(info), i))
  {
    var id := DisplayId(info);
    var digits := NatToDecimal(i);
    assert DisplayName(info, Some(i)) == "'" + (id + " #" + digits) + "'";
    ParseQuotedIndexedBody(id, digits);
    DecimalRoundTrip(i);
  }

  /** Labels carrying different indices never collide, whatever the
      displays' metadata: ordinal suffixes always disambiguate. */
  lemma DistinctIndicesGiveDistinctLabels(a: DisplayInfo, b: DisplayInfo, i: nat, j: nat)
    requires i != j
    ensures DisplayName(a, Some(i)) != DisplayName(b, Some(j))
  {
    IndexedLabelRoundTrip(a, i);
    IndexedLabelRoundTrip(b, j);
  }

  /** Two unindexed labels are equal exactly when the ids are. */
  lemma UnindexedLabelsEqualIffIdsEqual(a: DisplayInfo, b: DisplayInfo)
    ensures DisplayName(a, None) == DisplayName(b, None) <==> DisplayId(a) == DisplayId(b)
  {
    UnindexedLabelIsQuotedId(a);
    UnindexedLabelIsQuotedId(b);
  }

  /** `flatten` keeps its input's order: it splits over concatenation. */
  lemma {:induction false} PresentConcat(xs: seq<Option<string>>, ys: seq<Option<string>>)
    ensures Present(xs + ys) == Present(xs) + Present(ys)
    decreases |xs|
  {
    if |xs| == 0 {
      assert xs + ys == ys;
    } else {
      assert (xs + ys)[0] == xs[0];
      assert (xs + ys)[1..] == xs[1..] + ys;
      PresentConcat(xs[1..], ys);
    }
  }

  /** On Linux, when no field contains a space and at least one is present,
      the id splits back at its spaces into exactly the present fields, in
      the order manufacturer, model, serial: one space between each, and
      nothing for a `None`. */
  lemma LinuxIdSplitsIntoPresentFields(info: DisplayInfo)
    requires info.LinuxInfo?
    requires info.manufacturerId.Some? || info.modelName.Some? || info.serialNumber.Some?
    requires info.manufacturerId.Some? ==> HasNoSpace(info.manufacturerId.value)
    requires info.modelName.Some? ==> HasNoSpace(info.modelName.value)
    requires info.serialNumber.Some? ==> HasNoSpace(info.serialNumber.value)
    ensures SplitOnSpace(DisplayId(info)) == Present([info.manufacturerId, info.modelName, info.serialNumber])
  {
    var fields := [info.manufacturerId, info.modelName, info.serialNumber];
    var parts := Present(fields);
    assert fields == [fields[0]] + [fields[1]] + [fields[2]];
    PresentConcat([fields[0]] + [fields[1]], [fields[2]]);
    PresentConcat([fields[0]], [fields[1]]);
    assert |parts| > 0;
    forall k | 0 <= k < |parts|
      ensures HasNoSpace(parts[k])
    {
      assert Some(parts[k]) in fields;
    }
    SplitJoinRoundTrip(parts);
  }

  /** A display that reports nothing at all still gets a non-empty label. */
  lemma NoMetadataLabel()
    ensures DisplayName(LinuxInfo(None, None, None), None) == "''"
    ensures DisplayName(LinuxInfo(None, None, None), Some(2)) == "' #2'"
  {
  }

  /** `Some("")` is kept, so an empty model name leaves two spaces. */
  lemma EmptyFieldIsKept()
    ensures DisplayName(LinuxInfo(Some("DEL"), Some(""), Some("7")), None) == "'DEL  7'"
  {
  }

  /** No two displays in the list have the same unindexed label. */
  ghost predicate LabelsDistinct(displays: seq<DisplayInfo>) {
    forall i, j :: 0 <= i < j < |displays| ==> DisplayName(displays[i], None) != DisplayName(displays[j], None)
  }

  /** `are_display_names_unique`: inserts each unindexed label into a set
      and stops at the first label that is already there. */
  method AreDisplayNamesUnique(displays: seq<DisplayInfo>) returns (unique: bool)
    ensures unique <==> LabelsDistinct(displays)
  {
    var seen: set<string> := {};
    var i := 0;
    while i < |displays|
      invariant 0 <= i <= |displays|
      invariant seen == set j | 0 <= j < i :: DisplayName(displays[j], None)
      invariant LabelsDistinct(displays[..i])
    {
      var name := DisplayName(displays[i], None);
      if name in seen {
        ghost var j :| 0 <= j < i && DisplayName(displays[j], None) == name;
        return false;
      }
      seen := seen + {name};
      i := i + 1;
    }
    assert displays[..i] == displays;
    return true;
  }

  /** Label uniqueness is id uniqueness: quoting adds nothing that could
      merge or separate two ids. */
  lemma LabelsDistinctIffIdsDistinct(displays: seq<DisplayInfo>)
    ensures LabelsDistinct(displays) <==>
      forall i, j :: 0 <= i < j < |displays| ==> DisplayId(displays[i]) != DisplayId(displays[j])
  {
    forall i, j | 0 <= i < j < |displays|
      ensures DisplayName(displays[i], None) != DisplayName(displays[j], None)
          <==> DisplayId(displays[i]) != DisplayId(displays[j])
    {
      UnindexedLabelsEqualIffIdsEqual(displays[i], displays[j]);
    }
  }

  /** Displays whose ids coincide collide, wherever they sit in the list. */
  lemma EqualIdsAreNotUnique(displays: seq<DisplayInfo>, i: nat, j: nat)
    requires i < j < |displays|
    requires DisplayId(displays[i]) == DisplayId(displays[j])
    ensures !LabelsDistinct(displays)
  {
  }

  /** Different metadata can give the same label: the join does not mark
      where one field ends when a field contains a space. */
  lemma DifferentMetadataSameLabel()
    ensures LinuxInfo(Some("A"), Some("B C"), None) != LinuxInfo(Some("A B"), Some("C"), None)
    ensures DisplayName(LinuxInfo(Some("A"), Some("B C"), None), None) == "'A B C'"
    ensures DisplayName(LinuxInfo(Some("A B"), Some("C"), None), None) == "'A B C'"
    ensures !LabelsDistinct([LinuxInfo(Some("A"), Some("B C"), None), LinuxInfo(Some("A B"), Some("C"), None)])
  {
    EqualIdsAreNotUnique([LinuxInfo(Some("A"), Some("B C"), None), LinuxInfo(Some("A B"), Some("C"), None)], 0, 1);
  }
}

=== FILE: input_switch.dfy ===
/** The input-select decision of `try_switch_display`: read VCP feature
    0x60, stop if the display already shows the wanted input, otherwise
    write the wanted input once. The DDC/CI handle is abstracted to the
    result of its one read, whether it accepts the write, and a trace of
    the writes issued to it. */
module InputSwitch {
  import opened Wrappers
  import opened Bits

  newtype uint16 = x: int | 0 <= x < 0x1_0000

  /** VCP feature code for input select. */
  const INPUT_SELECT: nat := 0x60

  /** One `set_vcp_feature(feature, value)` call issued to the handle. */
  datatype VcpWrite = VcpWrite(feature: nat, value: uint16)

  /** The terminal states of one switch attempt. */
  datatype SwitchOutcome =
    | AlreadySet    // the read matched: nothing was written
    | Switched      // the write was issued and accepted
    | WriteFailed   // the write was issued and refused

  datatype Attempt = Attempt(outcome: SwitchOutcome, writes: seq<VcpWrite>)

  /** `raw & 0xff`: the current-input code carried in the low byte. */
  function LowByte(raw: uint16): (b: nat)
    ensures b < 0x100
    ensures b == raw as int % 0x100
  {
    BitAndLowMask(raw as nat, 8);
    BitAnd(raw as nat, 0xff)
  }

  /** Whether a read result shows the wanted input already selected. A
      failed read never does. */
  predicate ShowsInput(read: Option<uint16>, input: uint16) {
    read.Some? && LowByte(read.value) == input as int
  }

  /** `try_switch_display`, given what the read returned (`None` for an
      error), whether the handle accepts the write, the wanted input's
      value, and the writes issued to the handle so far. */
  function TrySwitchDisplay(read: Option<uint16>, writeAccepted: bool, input: uint16, trace: seq<VcpWrite>): (r: Attempt)
    ensures r.outcome == AlreadySet <==> read.Some? && read.value as int % 0x100 == input as int
    ensures r.outcome == AlreadySet ==> r.writes == trace
    ensures r.outcome != AlreadySet ==> r.writes == trace + [VcpWrite(INPUT_SELECT, input)]
    ensures r.outcome == Switched <==> r.outcome != AlreadySet && writeAccepted
  {
    if ShowsInput(read, input) then Attempt(AlreadySet, trace)
    else
      var writes := trace + [VcpWrite(INPUT_SELECT, input)];
      if writeAccepted then Attempt(Switched, writes) else Attempt(WriteFailed, writes)
  }

  /** A switch attempt never removes or rewrites earlier writes and adds at
      most one. */
  lemma AtMostOneWrite(read: Option<uint16>, writeAccepted: bool, input: uint16, trace: seq<VcpWrite>)
    ensures var r := TrySwitchDisplay(read, writeAccepted, input, trace);
      |trace| <= |r.writes| <= |trace| + 1 && r.writes[..|trace|] == trace
  {
  }

  /** A failed read does not block the write: it is treated like a
      mismatch. */
  lemma FailedReadStillWrites(writeAccepted: bool, input: uint16, trace: seq<VcpWrite>)
    ensures TrySwitchDisplay(None, writeAccepted, input, trace).writes == trace + [VcpWrite(INPUT_SELECT, input)]
  {
  }

  /** Reads that agree in their low byte lead to the same decision; the
      high byte is ignored. */
  lemma MaskInvariance(a: uint16, b: uint16, writeAccepted: bool, input: uint16, trace: seq<VcpWrite>)
    requires a as int % 0x100 == b as int % 0x100
    ensures TrySwitchDisplay(Some(a), writeAccepted, input, trace) == TrySwitchDisplay(Some(b), writeAccepted, input, trace)
  {
  }

  /** An input value wider than one byte never matches a masked read, so
      it is written on every attempt. */
  lemma WideInputAlwaysWrites(read: Option<uint16>, writeAccepted: bool, input: uint16, trace: seq<VcpWrite>)
    requires input >= 0x100
    ensures |TrySwitchDisplay(read, writeAccepted, input, trace).writes| == |trace| + 1
  {
  }

  /** A display as seen through its handle: the input-select register,
      whether reads of it succeed and whether writes to it take effect. */
  datatype Monitor = Monitor(register: uint16, readable: bool, writable: bool)

  function ReadInputSelect(m: Monitor): Option<uint16> {
    if m.readable then Some(m.register) else None
  }

  /** One switch attempt against a monitor: the decision taken on what the
      monitor reports, and the monitor afterwards. That an accepted write
      replaces the register is an assumption about the hardware, not
      something the switching code itself does. */
  function SwitchMonitor(m: Monitor, input: uint16, trace: seq<VcpWrite>): (r: (Monitor, Attempt))
    ensures r.1 == TrySwitchDisplay(ReadInputSelect(m), m.writable, input, trace)
    ensures r.1.outcome == Switched ==> r.0.register == input
    ensures r.1.outcome != Switched ==> r.0 == m
    ensures m.readable && input < 0x100 ==>
      (r.1.outcome != WriteFailed <==> ShowsInput(ReadInputSelect(r.0), input))
  {
    var attempt := TrySwitchDisplay(ReadInputSelect(m), m.writable, input, trace);
    if attempt.outcome == Switched then
      var after := m.(register := input);
      assert after.readable ==> ReadInputSelect(after) == Some(input);
      (after, attempt)
    else (m, attempt)
  }

  /** Idempotence: once a readable display has been switched to a one-byte
      input (or already showed it), switching it again writes nothing. */
  lemma {:induction false} SwitchTwiceWritesOnce(m: Monitor, input: uint16, trace: seq<VcpWrite>)
    requires m.readable
    requires input < 0x100
    ensures var (m1, first) := SwitchMonitor(m, input, trace);
      first.outcome != WriteFailed ==>
        SwitchMonitor(m1, input, first.writes).1 == Attempt(AlreadySet, first.writes)
  {
  }

  /** Example: the display reports input 0x0f with a non-zero high byte
      and 0x0f is wanted: no write. */
  lemma HighByteIgnoredExample()
    ensures TrySwitchDisplay(Some(0x010f), true, 0x0f, []) == Attempt(AlreadySet, [])
  {
  }
}

=== FILE: words.dfy ===
/** Joining strings with a single space, as `Vec<&str>::join(" ")` does, and
    the split that undoes it. */
module Words {

  predicate HasNoSpace(s: string) {
    forall i :: 0 <= i < |s| ==> s[i] != ' '
  }

  /** `parts.join(" ")`: the parts in order, one space between neighbours,
      none before the first or after the last. */
  function JoinWithSpace(parts: seq<string>): (s: string)
    ensures |parts| == 0 ==> s == ""
    ensures |parts| > 0 ==> |s| >= |parts| - 1
  {
    if |parts| == 0 then ""
    else if |parts| == 1 then parts[0]
    else parts[0] + " " + JoinWithSpace(parts[1..])
  }

  /** Cuts a string at every space. Like Rust's `split(' ')`, it yields one
      more piece than there are spaces, so empty pieces survive. */
  function SplitOnSpace(s: string): (parts: seq<string>)
    ensures |parts| > 0
  {
    if |s| == 0 then [""]
    else if s[0] == ' ' then [""] + SplitOnSpace(s[1..])
    else
      var rest := SplitOnSpace(s[1..]);
      [[s[0]] + rest[0]] + rest[1..]
  }

  /** A space-free prefix sticks to the first piece of what follows it. */
  lemma {:induction false} SplitSpaceFreePrefix(a: string, t: string)
    requires HasNoSpace(a)
    ensures SplitOnSpace(a + t) == [a + SplitOnSpace(t)[0]] + SplitOnSpace(t)[1..]
    decreases |a|
  {
    if |a| > 0 {
      assert (a + t)[0] == a[0];
      assert (a + t)[1..] == a[1..] + t;
      SplitSpaceFreePrefix(a[1..], t);
      assert [a[0]] + (a[1..] + SplitOnSpace(t)[0]) == a + SplitOnSpace(t)[0];
    } else {
      var p := SplitOnSpace(t);
      assert a + t == t;
      assert a + p[0] == p[0];
      assert p == [p[0]] + p[1..];
    }
  }

  /** Splitting undoes joining when no part contains a space: every part,
      even an empty one, comes back in its place. Only the empty list is
      lost, because it joins to the same "" as the list [""]. */
  lemma {:induction false} SplitJoinRoundTrip(parts: seq<string>)
    requires |parts| > 0
    requires forall k :: 0 <= k < |parts| ==> HasNoSpace(parts[k])
    ensures SplitOnSpace(JoinWithSpace(parts)) == parts
    decreases |parts|
  {
    if |parts| == 1 {
      SplitSpaceFreePrefix(parts[0], "");
      assert parts[0] + "" == parts[0];
    } else {
      var u := JoinWithSpace(parts[1..]);
      assert parts[0] + " " + u == parts[0] + (" " + u);
      SplitSpaceFreePrefix(parts[0], " " + u);
      assert (" " + u)[1..] == u;
      SplitJoinRoundTrip(parts[1..]);
      assert parts[0] + "" == parts[0];
    }
  }
}

=== FILE: wrappers.dfy ===
/** Option and Result, the shapes the Rust code uses for optional metadata,
    fallible hardware reads and fallible commands. */
module Wrappers {

  /** An optional value: Rust's `Option<T>`. */
  datatype Option<+T> = None | Some(value: T)

  /** Success or failure with a diagnostic: Rust's `Result<T, E>`. */
  datatype Result<+R, +E> = Success(value: R) | Failure(error: E)
}
